=== FILE: README.md ===
# Data-governance core of Unified Dev Core 3.0, in Dafny

This project models the data-governance classes of `codex_init.py`:

- `PrivacyGuardian`: the policy gate `allowed` and the consent bookkeeping `request_delete` and `confirm_delete`.
- `AuditController.record`.
- `MemoryCurator`: `log_event` and `delete_by_key`.
- `TrainingManager.check_missing`.
- `VaultKeeper.put` and `VaultKeeper.get`.

The four files the core reads and writes are the consent document, the privacy log, the audit
log and the memory log. They become one immutable `Storage.Store` value, and every operation is
a pure function over it:
- An operation that can return a value or raise returns a `Storage.Step`: the new store, plus
  what the call returned or the exception it let escape (`Result`). These are `Privacy.Allowed`,
  `Privacy.RequestDelete`, `Memory.LogEvent` and `Memory.DeleteByKey`.
- An operation that cannot fail returns the new `Store` directly. These are `Privacy.Open` and
  `Privacy.ConfirmDelete`.
- `Vault.Put` works on the vault's secret map and the audit log. It returns both as a pair.

Modules:

| module | file | what it holds |
|---|---|---|
| `Wrappers` | wrappers.dfy | `Option`, `Result` |
| `Seqs` | seqs.dfy | prefix (append-only) and subsequence relations, an order-preserving `Filter` |
| `Json` | json.dfy | JSON values as `json.loads` returns them, `dict.get` |
| `Text` | text.dfy | lower-casing for block-list matching |
| `Audit` | audit.dfy | tiers, audit events, `record` |
| `Consent` | consent.dfy | the consent document, its bootstrap and load, and the consent-map decision |
| `Storage` | storage.dfy | privacy records, memory-log lines, the store, the faults |
| `Privacy` | privacy.dfy | the policy configuration, `allowed`, `request_delete`, `confirm_delete` |
| `Memory` | memory.dfy | `log_event`, the rewrite of `delete_by_key` (as a function and as the loop the code runs) |
| `Training` | training.dfy | `check_missing` |
| `Vault` | vault.dfy | `put` and `get` |
| `Governance` | governance.dfy | all calls as one state machine, whole-run invariants, end-to-end scenarios |

Behaviour of the code that the model keeps:

- `allowed` reads `consents` before `denies` (codex_init.py:185-189). An action flagged `true`
  in both maps is therefore allowed (`Consent.ConsentOverridesDeny`).
- The deletion key is `data["_key_hash"]`, with the leading underscore.
- Only a memory record that is a JSON object, and whose `data` (when present) is also an object,
  can be looked into. For any other parsed line, `rec.get` or `data.get` raises
  `AttributeError`, and the `except` clause does not catch it. The log has already been reopened
  for writing at that point. It is left holding only the survivors that came before the first such
  record; that record and every line after it are lost, even lines that do not carry the hash
  (`Memory.CompactStopsAtFirstMalformed`, `Governance.MalformedRecordScenario`). No audit
  event is recorded, and the error reaches the caller (`Storage.MalformedMemoryRecord`). Lines
  that do not parse as JSON are dropped silently. `Memory.CompleteIffWellShaped` shows that the
  rewrite finishes exactly when no line of the first kind is present.
  `Governance.RunKeepsMemoryReadable` shows that a log written only through `log_event` never
  holds such a line.
- `log_event` and `delete_by_key` audit only when the curator was given an auditor.
- `allowed` loads the consent file only after the perimeter checks have passed. A blocked key
  or a refused domain is therefore refused even when that file is corrupt
  (`Privacy.PerimeterIgnoresConsent`). On the consent path, a file that does not load makes
  `allowed` raise, and so does `log_event` (`Storage.ConsentUnreadable`).

## Model

| member | source | states |
|---|---|---|
| Audit.NewAuditor | codex_init.py:131-133 | an absent or empty tier list falls back to `app`, `security`, `compliance`; a given list is kept |
| Audit.Auditor.TierFor | codex_init.py:136-137 | a tier the auditor knows is kept, any other becomes `app`, so the result is always a known tier or `app` |
| Audit.Record | codex_init.py:135-145 | exactly one event is appended and earlier events are untouched; the event has the given action, actor, detail and time; its tier is the given one if the auditor knows it, otherwise `app` |
| Audit.RecordKeepsTiers | codex_init.py:135-137 | a trail holding only known tiers and `app` keeps that property after every record |
| Audit.DefaultAuditorTiers | codex_init.py:131-137 | If a trail's events all have default tiers, then after any record by the default auditor they still all have tier `app`, `security` or `compliance`. |
| Consent.Bootstrap | codex_init.py:159-163 | after the constructor the consent file is never blank; a non-empty file (stored or corrupt) is left as it is |
| Consent.Load | codex_init.py:165-167 | only a stored document loads; a blank or corrupt file fails |
| Consent.Flagged | codex_init.py:185-188 | an action is flagged only when the map is present, holds the action, and maps it to the JSON literal `true`, and such a `true` always flags it; any other value is no flag |
| Consent.Permits | codex_init.py:183-190 | the consent maps permit an action exactly when it is consented, or not denied |
| Consent.AddRequest | codex_init.py:194-195 | `consents` and `denies` are unchanged; the request list grows by exactly the new request at its end; a missing list is created |
| Consent.BootstrapIdempotent | codex_init.py:160-163 | bootstrapping twice equals bootstrapping once |
| Consent.FreshLoad | codex_init.py:159-167 | on a fresh environment the first load returns the empty document, which permits every action and holds no requests |
| Consent.ConsentOverridesDeny | codex_init.py:184-189 | an action flagged `true` in both maps is permitted |
| Consent.AddRequestAppendOnly | codex_init.py:195 | earlier delete requests stay in place |
| Privacy.Given | codex_init.py:174 | `None` is not a given key or domain, and a given one is non-empty (Python truthiness) |
| Privacy.KeyBlocked | codex_init.py:174 | no key and no block-list never block; a key listed verbatim is blocked; a blocked key equals some listed key once both are lower-cased |
| Privacy.DomainRefused | codex_init.py:178-179 | a domain is refused exactly when it is given, the allowlist is non-empty, and the domain is not on the list, compared case-sensitively |
| Privacy.Open | codex_init.py:156-163 | the constructor leaves a non-blank consent file and touches nothing else |
| Privacy.Allowed | codex_init.py:173-190 | a blocked key (case-insensitive) gives `false`, one `blocked` record and one `compliance`/`blocked_key` event; otherwise a given domain outside a non-empty allowlist gives `false`, one `denied` record and one `security`/`domain_denied` event; otherwise no file changes and the consent maps decide, or the call fails when the consent file does not load |
| Privacy.RequestDelete | codex_init.py:192-198 | on a loadable document: `consents`/`denies` are unchanged, the requests grow by exactly `{t, key, reason}`, and one privacy record and one `compliance`/`delete_request` event are appended, with the memory log untouched; otherwise the call fails and nothing changes |
| Privacy.ConfirmDelete | codex_init.py:200-202 | exactly one privacy record and one `compliance`/`delete_confirmed` event are appended; the consent file and the memory log are untouched |
| Privacy.AllowedVerdict | codex_init.py:173-190 | `false` exactly on a block-list hit, an allowlist miss, or a deny flag without consent; `true` exactly when neither perimeter check fires and the maps permit; a failure exactly when the consent file is needed and does not load |
| Privacy.PerimeterIgnoresConsent | codex_init.py:174-183 | a perimeter refusal does not depend on the consent file, even a corrupt one |
| Privacy.KeyBlockedIgnoresCase | codex_init.py:174 | keys with equal lower-cased forms are blocked alike |
| Privacy.BlockingIgnoresCase | codex_init.py:174 | keys that lower-case alike get the same decision |
| Privacy.AllowedAppendsOnly | codex_init.py:173-190 | `allowed` only appends, and it appends the same number (0 or 1) of privacy records and audit events |
| Memory.Entry | codex_init.py:217 | the written record is an object with members `t`, `user`, `ns`, `data` holding the call's time, user, namespace and the caller's data unchanged, and the rewrite reads its key hash as `data["_key_hash"]` |
| Memory.StoredHash | codex_init.py:233-234 | looking into a record raises exactly when the record is not an object, or its `data` is present and not an object; a record without `data` has no hash; a found hash is `data["_key_hash"]` |
| Memory.Compact | codex_init.py:227-238 | the rewrite writes back only lines of the original log that are parsed, do not carry the hash, and can be looked into |
| Memory.RewriteLines | codex_init.py:229-238 | the line-by-line loop produces exactly the compaction, and no kept line carries the hash |
| Memory.LogEvent | codex_init.py:212-220 | the privacy log and consent file are untouched; an unloadable consent file makes the call fail with no change; under denial nothing changes; under permission exactly one entry `{t, user, ns, data}` is appended, plus one `app`/`memory_write` event when there is an auditor |
| Memory.DeleteByKey | codex_init.py:224-240 | every remaining line was in the log and survives the hash; the call succeeds exactly when every line is well shaped; on success exactly one `compliance`/`memory_delete` event is recorded (given an auditor), even when nothing matched; on failure no event is recorded and the log holds exactly the survivors before the first unreadable record |
| Memory.CompactStopsAtFirstMalformed | codex_init.py:229-238 | when line `k` is the first record that cannot be looked into, the rewrite fails and keeps exactly the survivors among the lines before `k` |
| Memory.CompactOnFailure | codex_init.py:229-238 | a rewrite that fails has kept exactly the survivors before the first unreadable record |
| Memory.CompleteIffWellShaped | codex_init.py:230-238 | the rewrite reaches the end of the log exactly when every parsed record and its `data` are objects |
| Memory.CompactIsFilter | codex_init.py:230-238 | on a well-shaped log the result is the order-preserving filter of parsed records whose `_key_hash` is not the hash |
| Memory.CompactKeepsOrder | codex_init.py:229-236 | the lines written back are a subsequence of the log |
| Memory.CompactFixesSurvivors | codex_init.py:230-236 | a log of surviving, well-shaped records is written back unchanged |
| Memory.CompactIdempotent | codex_init.py:224-238 | compacting the result again by the same hash changes nothing and always completes |
| Memory.CompactCommutes | codex_init.py:224-238 | deleting two hashes in either order leaves the same lines |
| Memory.DeleteRemovesAllAndOnly | codex_init.py:224-238 | on a well-shaped log a line remains exactly when it was present, parsed and not carrying the hash; order is kept, and the result is the order-preserving filter of the log, so duplicate records survive as often as they occur |
| Memory.DeleteByKeyIdempotent | codex_init.py:224-240 | a second delete by the same hash leaves the memory log unchanged, succeeds, and still records one event when the curator has an auditor |
| Memory.LogEventKeepsWellShaped | codex_init.py:217-218 | entries written by `log_event` keep the log readable by the rewrite |
| Memory.WrittenThenErased | codex_init.py:212-238 | an entry written under consent with `_key_hash` `h` is present and matches `h`; after `delete_by_key(h)` it, and every record carrying `h`, is gone |
| Training.Missing | codex_init.py:310 | a parameter is missing exactly when it is absent, `None` or empty: an absent one is missing, a present non-empty one is not, and one that is not missing has a non-empty value |
| Training.CheckMissing | codex_init.py:307-310 | exactly the required parameters that are absent, `None` or empty, as a subsequence of the required order |
| Training.PartlyGiven | codex_init.py:310 | with `api_key` set, `endpoint` empty and `domain` `None`, exactly `endpoint` and `domain` are reported, in that order |
| Training.NothingGiven | codex_init.py:349 | with every parameter `None`, all three are reported in order |
| Training.AllGiven | codex_init.py:309-310 | when every parameter is set and non-empty, nothing is reported |
| Text.Lower | codex_init.py:174 | lower-casing keeps the length, leaves no upper-case ASCII letter, maps each upper-case ASCII letter to its lower-case form, and keeps every other character, including non-ASCII letters |
| Vault.Get | codex_init.py:296-297 | returns the stored secret, or `None` exactly when none is stored |
| Vault.Put | codex_init.py:287-292 | without approval the secrets and the audit log are unchanged; with it the secret is readable, other names are unaffected, and one `security`/`secret_store` event is recorded |
| Vault.PutAuditsNameOnly | codex_init.py:292 | the audit event of a stored secret carries its name and not its value |
| Vault.PutTwice | codex_init.py:291 | storing the same secret twice changes the map no further |
| Governance.Apply | codex_init.py:173-240 | any single call only appends to the privacy log, the audit log and the delete requests, keeps the consent and deny maps, and keeps a readable memory log readable |
| Governance.RunAppendOnly | codex_init.py:135-240 | over any sequence of calls the privacy log, audit log and delete requests only grow, and the consent and deny maps never change |
| Governance.RunKeepsMemoryReadable | codex_init.py:212-238 | a memory log written only through the curator stays readable, so any later `delete_by_key` succeeds |
| Governance.BlockedTokenScenario | codex_init.py:174-177 | with block-list `["token"]`, key `TOKEN` is refused and one `blocked` record is written |
| Governance.DomainAllowlistScenario | codex_init.py:178-190 | with allowlist `["a.com"]`, `b.com` is refused and `a.com` is allowed |
| Governance.ConsentedWriteScenario | codex_init.py:183-186 | a `true` consent for `memory_write` allows the write |
| Governance.DeniedWriteScenario | codex_init.py:183-189 | a `true` deny for `memory_write` with no consent refuses the write |
| Governance.ConsentBeatsDenyScenario | codex_init.py:183-186 | `true` in both the consent and the deny map allows the write, because consent is read first |
| Governance.UnblockedKeyScenario | codex_init.py:174 | the key `other` against block-list `["token"]` is not blocked and is allowed on the bootstrap document |
| Governance.DeleteMiddleScenario | codex_init.py:224-240 | deleting `h2` from records `h1, h2, h3` leaves `h1, h3` and one compliance event |
| Governance.MalformedRecordScenario | codex_init.py:229-240 | deleting `h2` from `h1`, a record with `data: null`, `h3` raises, leaves only `h1`, and records no event |

## Left out

- File I/O and JSON encoding: the files are in-memory values. A JSON line the code writes is assumed to read back as the same value. A memory line that fails to parse is `Unparsed`, and the text of such lines is not kept.
- The early return of `delete_by_key` when the memory log is missing: the model assumes the file exists, since the curator's constructor creates it.
- Timestamps and hashing: `now_iso()` is a parameter `now`, and every timestamp taken within one call is assumed equal. `sha256` is not modelled. The key hash that `main` stores in `data["_key_hash"]` (codex_init.py:346) is taken as an arbitrary string, and the digest in the vault's broadcast text is dropped with the broadcast.
- Consent documents whose members have the wrong JSON type, such as a `consents` that is not an object: the model types the members, so such a document cannot be written down. A top-level value that is not an object counts as `Corrupt`.
- Unknown top-level members of the consent document: not modelled, since the code only passes them through.
- JSON numbers are integers: no property compares numbers.
- Privacy.KeyBlocked: lower-cases ASCII letters only, while Python's `str.lower` folds all of Unicode.
- Text.Lower: folds the ASCII letters `A`-`Z` only. Python's `str.lower` also lower-cases non-ASCII letters (`"É"` becomes `"é"`), and it can change a string's length; neither is modelled.
- `CodexHub.broadcast`, `status_report`, `print` and `logging`: notification side effects with no effect on the files.
- `Agent` metadata and configuration loading: the policy configuration is an input value. An absent list is modelled as the empty list, which behaves the same.
- `SyncBridge`, `ReflectionAgent`, `ContextWeaver`, `TrainingManager.eli10_prompt` and `main`'s thread loops: network polling, timers and user-facing text.
- `retention_days`: stored by the curator and never used.
- Concurrency: the model is single-threaded, one call after another.

=== FILE: audit.dfy ===
/** AuditController: an append-only trail of tiered governance events. */
module Audit {
  import opened Seqs

  const App := "app"
  const Security := "security"
  const Compliance := "compliance"

  /** The tiers an auditor recognises when it is built without a list of its own. */
  const DefaultTiers: seq<string> := [App, Security, Compliance]

  /** One line of the audit log: `{t, tier, action, actor, detail}`. */
  datatype Event = Event(t: string, tier: string, action: string, actor: string, detail: map<string, string>)

  datatype Auditor = Auditor(tiers: seq<string>) {

    /** The tier an event submitted under `tier` is filed under: unknown tiers become `app`. */
    function TierFor(tier: string): (r: string)
      ensures r in tiers || r == App
      ensures tier in tiers ==> r == tier
      ensures tier !in tiers ==> r == App
    {
      if tier in tiers then tier else App
    }
  }

  /** `AuditController(tiers)`: an absent or empty list falls back to the default tiers. */
  function NewAuditor(tiers: seq<string>): (a: Auditor)
    ensures |a.tiers| > 0
    ensures |tiers| > 0 ==> a.tiers == tiers
    ensures |tiers| == 0 ==> a.tiers == DefaultTiers
  {
    Auditor(if |tiers| > 0 then tiers else DefaultTiers)
  }

  /** `record(tier, action, actor, detail)`: exactly one event is appended, never rejected. */
  function Record(a: Auditor, log: seq<Event>, now: string, tier: string, action: string,
                  actor: string, detail: map<string, string>): (r: seq<Event>)
    ensures |r| == |log| + 1
    ensures IsPrefix(log, r)
    ensures r[|log|].action == action && r[|log|].actor == actor && r[|log|].detail == detail
    ensures r[|log|].t == now
    ensures tier in a.tiers ==> r[|log|].tier == tier
    ensures tier !in a.tiers ==> r[|log|].tier == App
  {
    log + [Event(now, a.TierFor(tier), action, actor, detail)]
  }

  /** Every event of `log` is filed under one of `tiers`. */
  predicate FiledUnder(log: seq<Event>, tiers: seq<string>) {
    forall i :: 0 <= i < |log| ==> log[i].tier in tiers
  }

  /** A trail written only by an auditor never holds a tier outside its list and `app`. */
  lemma RecordKeepsTiers(a: Auditor, log: seq<Event>, now: string, tier: string, action: string,
                         actor: string, detail: map<string, string>)
    requires FiledUnder(log, a.tiers + [App])
    ensures FiledUnder(Record(a, log, now, tier, action, actor, detail), a.tiers + [App])
  {
  }

  /** With the default tiers an event lands in `app`, `security` or `compliance`, whatever it asked for. */
  lemma DefaultAuditorTiers(log: seq<Event>, now: string, tier: string, action: string,
                            actor: string, detail: map<string, string>)
    requires FiledUnder(log, DefaultTiers)
    ensures FiledUnder(Record(NewAuditor([]), log, now, tier, action, actor, detail), DefaultTiers)
  {
  }
}

=== FILE: consent.dfy ===
/** The consent document: per-action consent and deny flags and the pending delete requests. */
module Consent {
  import opened Wrappers
  import opened Seqs
  import Json

  /** One `delete_requests` entry: `{t, key, reason}`. */
  datatype DeleteRequest = DeleteRequest(t: string, key: string, reason: string)

  /**
   * The document as loaded. A member the document lacks is `None`; the code reads
   * `consents` and `denies` with an empty default and creates `delete_requests` on demand.
   */
  datatype Doc = Doc(
    consents: Option<map<string, Json.Value>>,
    denies: Option<map<string, Json.Value>>,
    deleteRequests: Option<seq<DeleteRequest>>)

  /**
   * The consent file on disk: absent or zero-sized, holding a document, or holding
   * something that does not load as a JSON object.
   */
  datatype File = Blank | Stored(doc: Doc) | Corrupt

  /** The document written by the bootstrap: `{"consents": {}, "denies": {}, "delete_requests": []}`. */
  const EmptyDoc := Doc(Some(map[]), Some(map[]), Some([]))

  /** The constructor's bootstrap: only an absent or empty file is (re)initialised. */
  function Bootstrap(f: File): (r: File)
    ensures !r.Blank?
    ensures !f.Blank? ==> r == f
  {
    if f.Blank? then Stored(EmptyDoc) else f
  }

  /** `json.load` of the file: only a stored document loads; an empty or corrupt file raises. */
  function Load(f: File): (r: Option<Doc>)
    ensures r.Some? <==> f.Stored?
    ensures f.Stored? ==> r.value == f.doc
  {
    match f
    case Stored(doc) => Some(doc)
    case _ => None
  }

  /** `action in m and m[action] is True`: only the JSON literal `true` counts, and an absent map is empty. */
  function Flagged(m: Option<map<string, Json.Value>>, action: string): (r: bool)
    ensures m.None? || (m.Some? && action !in m.value) ==> !r
    ensures r ==> m.value[action].JBool? && m.value[action].b
    ensures m.Some? && action in m.value && m.value[action] != Json.JBool(true) ==> !r
    ensures m.Some? && action in m.value && m.value[action] == Json.JBool(true) ==> r
  {
    m.Some? && action in m.value && m.value[action] == Json.JBool(true)
  }

  /** The consent-map decision: consent is consulted first, then the deny map, then allow by default. */
  function Permits(doc: Doc, action: string): (r: bool)
    ensures r <==> Flagged(doc.consents, action) || !Flagged(doc.denies, action)
  {
    if Flagged(doc.consents, action) then true
    else if Flagged(doc.denies, action) then false
    else true
  }

  /** The recorded delete requests; a document without the member has none. */
  function Requests(doc: Doc): seq<DeleteRequest> {
    doc.deleteRequests.GetOr([])
  }

  /** `c.setdefault("delete_requests", []).append(req)`. */
  function AddRequest(doc: Doc, req: DeleteRequest): (r: Doc)
    ensures r.consents == doc.consents && r.denies == doc.denies
    ensures Requests(r) == Requests(doc) + [req]
    ensures r.deleteRequests.Some?
  {
    doc.(deleteRequests := Some(Requests(doc) + [req]))
  }

  /** Bootstrapping twice is bootstrapping once. */
  lemma BootstrapIdempotent(f: File)
    ensures Bootstrap(Bootstrap(f)) == Bootstrap(f)
  {
  }

  /** On a fresh environment the first load after the bootstrap sees the empty document. */
  lemma FreshLoad()
    ensures Load(Bootstrap(Blank)) == Some(EmptyDoc)
    ensures Requests(EmptyDoc) == [] && forall a :: Permits(EmptyDoc, a)
  {
  }

  /** An action flagged in both maps is permitted: consent is checked before denial. */
  lemma ConsentOverridesDeny(doc: Doc, action: string)
    requires Flagged(doc.consents, action) && Flagged(doc.denies, action)
    ensures Permits(doc, action)
  {
  }

  /** Adding a request keeps every earlier request in place. */
  lemma AddRequestAppendOnly(doc: Doc, req: DeleteRequest)
    ensures IsPrefix(Requests(doc), Requests(AddRequest(doc, req)))
  {
  }
}

=== FILE: governance.dfy ===
/** The governance core as one state machine over the four files, and its end-to-end promises. */
module Governance {
  import opened Wrappers
  import opened Seqs
  import opened Storage
  import Json
  import Audit
  import Consent
  import Privacy
  import Memory
  import Text

  /** A call into the core that touches the governed files, named after the operation it runs. */
  datatype Call =
    | Allowed(action: string, givenKey: Option<string>, givenDomain: Option<string>)
    | RequestDelete(key: string, reason: string)
    | ConfirmDelete(key: string)
    | LogEvent(user: string, ns: string, data: map<string, Json.Value>)
    | DeleteByKey(keyHash: string)

  /** A call together with the clock reading it is made at. */
  datatype Timed = Timed(now: string, call: Call)

  /** The delete requests the consent file records; a file that does not load records none. */
  function RequestsOf(f: Consent.File): seq<Consent.DeleteRequest> {
    if f.Stored? then Consent.Requests(f.doc) else []
  }

  /** The consent and deny maps, when the file loads. */
  function PolicyMaps(f: Consent.File): Option<(Option<map<string, Json.Value>>, Option<map<string, Json.Value>>)> {
    if f.Stored? then Some((f.doc.consents, f.doc.denies)) else None
  }

  /**
   * One call, through the curator and its guardian. Whatever it returns or raises, the logs and
   * the delete requests only grow, and the consent and deny maps stay as they were.
   */
  function Apply(c: Memory.Curator, s: Store, t: Timed): (r: Store)
    ensures IsPrefix(s.privacyLog, r.privacyLog)
    ensures IsPrefix(s.auditLog, r.auditLog)
    ensures IsPrefix(RequestsOf(s.consent), RequestsOf(r.consent))
    ensures PolicyMaps(r.consent) == PolicyMaps(s.consent)
    ensures Memory.AllWellShaped(s.memoryLog) ==> Memory.AllWellShaped(r.memoryLog)
  {
    match t.call
    case Allowed(action, key, domain) => Privacy.Allowed(c.guardian, s, t.now, action, key, domain).store
    case RequestDelete(key, reason) => Privacy.RequestDelete(c.guardian, s, t.now, key, reason).store
    case ConfirmDelete(key) => Privacy.ConfirmDelete(c.guardian, s, t.now, key)
    case LogEvent(user, ns, data) =>
      Memory.LogEventKeepsWellShaped(c, s, t.now, user, ns, data);
      Memory.LogEvent(c, s, t.now, user, ns, data).store
    case DeleteByKey(h) => Memory.DeleteByKey(c, s, t.now, h).store
  }

  /** A sequence of calls, one after another. */
  function Run(c: Memory.Curator, s: Store, calls: seq<Timed>): Store
    decreases |calls|
  {
    if |calls| == 0 then s else Run(c, Apply(c, s, calls[0]), calls[1..])
  }

  /**
   * Over any run the privacy log, the audit log and the delete requests are append-only,
   * and the consent and deny maps never change.
   */
  lemma {:induction false} RunAppendOnly(c: Memory.Curator, s: Store, calls: seq<Timed>)
    ensures IsPrefix(s.privacyLog, Run(c, s, calls).privacyLog)
    ensures IsPrefix(s.auditLog, Run(c, s, calls).auditLog)
    ensures IsPrefix(RequestsOf(s.consent), RequestsOf(Run(c, s, calls).consent))
    ensures PolicyMaps(Run(c, s, calls).consent) == PolicyMaps(s.consent)
    decreases |calls|
  {
    if |calls| > 0 {
      var s1 := Apply(c, s, calls[0]);
      RunAppendOnly(c, s1, calls[1..]);
      var r := Run(c, s, calls);
      PrefixTransitive(s.privacyLog, s1.privacyLog, r.privacyLog);
      PrefixTransitive(s.auditLog, s1.auditLog, r.auditLog);
      PrefixTransitive(RequestsOf(s.consent), RequestsOf(s1.consent), RequestsOf(r.consent));
    }
  }

  /**
   * A memory log written only through the curator stays readable by the rewrite, so no later
   * `delete_by_key` can stop half-way.
   */
  lemma {:induction false} RunKeepsMemoryReadable(c: Memory.Curator, s: Store, calls: seq<Timed>, now: string, h: string)
    requires Memory.AllWellShaped(s.memoryLog)
    ensures Memory.AllWellShaped(Run(c, s, calls).memoryLog)
    ensures Memory.DeleteByKey(c, Run(c, s, calls), now, h).out == Ok(())
    decreases |calls|
  {
    if |calls| > 0 {
      RunKeepsMemoryReadable(c, Apply(c, s, calls[0]), calls[1..], now, h);
    }
  }

  // End-to-end scenarios.

  /** Block-list `["token"]`: a request with key `TOKEN` is refused and leaves one `blocked` record. */
  lemma BlockedTokenScenario(auditor: Audit.Auditor, s: Store, now: string)
    ensures var g := Privacy.Guardian(Privacy.Policy(["token"], []), auditor);
            var r := Privacy.Allowed(g, s, now, "read", Some("TOKEN"), None);
            && r.out == Ok(false)
            && r.store.privacyLog == s.privacyLog + [BlockedKey(now, "read", "TOKEN")]
            && |r.store.auditLog| == |s.auditLog| + 1
  {
    var g := Privacy.Guardian(Privacy.Policy(["token"], []), auditor);
    assert "token" in g.policy.blockedKeys;
    assert Privacy.KeyBlocked(g.policy, Some("TOKEN"));
  }

  /** Allowlist `["a.com"]`: `b.com` is refused, `a.com` passes on the bootstrap document. */
  lemma DomainAllowlistScenario(auditor: Audit.Auditor, s: Store, now: string)
    requires s.consent == Consent.Stored(Consent.EmptyDoc)
    ensures var g := Privacy.Guardian(Privacy.Policy([], ["a.com"]), auditor);
            && Privacy.Allowed(g, s, now, "fetch", None, Some("b.com")).out == Ok(false)
            && Privacy.Allowed(g, s, now, "fetch", None, Some("a.com")).out == Ok(true)
  {
  }

  /** `consents = {"memory_write": true}` with no perimeter configured: writes are allowed. */
  lemma ConsentedWriteScenario(auditor: Audit.Auditor, s: Store, now: string)
    requires s.consent == Consent.Stored(Consent.EmptyDoc.(consents := Some(map[Memory.WriteAction := Json.JBool(true)])))
    ensures Privacy.Allowed(Privacy.Guardian(Privacy.Policy([], []), auditor), s, now, Memory.WriteAction, None, None).out == Ok(true)
  {
  }

  /** `denies = {"memory_write": true}` alone refuses the write. */
  lemma DeniedWriteScenario(auditor: Audit.Auditor, s: Store, now: string)
    requires s.consent == Consent.Stored(Consent.EmptyDoc.(denies := Some(map[Memory.WriteAction := Json.JBool(true)])))
    ensures Privacy.Allowed(Privacy.Guardian(Privacy.Policy([], []), auditor), s, now, Memory.WriteAction, None, None).out == Ok(false)
  {
  }

  /** `true` in both the consent and the deny map: consent wins and the write is allowed. */
  lemma ConsentBeatsDenyScenario(auditor: Audit.Auditor, s: Store, now: string)
    requires s.consent == Consent.Stored(Consent.EmptyDoc.(consents := Some(map[Memory.WriteAction := Json.JBool(true)]),
                                                           denies := Some(map[Memory.WriteAction := Json.JBool(true)])))
    ensures Privacy.Allowed(Privacy.Guardian(Privacy.Policy([], []), auditor), s, now, Memory.WriteAction, None, None).out == Ok(true)
  {
  }

  /** Block-list `["token"]`: the key `other` matches no entry and passes on the bootstrap document. */
  lemma UnblockedKeyScenario(auditor: Audit.Auditor, s: Store, now: string)
    requires s.consent == Consent.Stored(Consent.EmptyDoc)
    ensures Privacy.Allowed(Privacy.Guardian(Privacy.Policy(["token"], []), auditor), s, now, "read", Some("other"), None).out == Ok(true)
  {
    assert Text.Lower("token")[0] == 't';
    assert Text.Lower("other")[0] == 'o';
    assert !Privacy.KeyBlocked(Privacy.Policy(["token"], []), Some("other"));
  }

  /** A record carrying key hash `h`, as `log_event` writes it. */
  function Tagged(h: string): Line {
    Parsed(Memory.Entry("t", "u", "ns", map[Memory.HashField := Json.JString(h)]))
  }

  /** Records tagged `h1`, `h2`, `h3`: deleting `h2` leaves `h1`, `h3` and one compliance event. */
  lemma DeleteMiddleScenario(auditor: Audit.Auditor, s: Store, now: string)
    requires s.memoryLog == [Tagged("h1"), Tagged("h2"), Tagged("h3")]
    ensures var c := Memory.Curator(Privacy.Guardian(Privacy.Policy([], []), auditor), Some(Audit.NewAuditor([])));
            var r := Memory.DeleteByKey(c, s, now, "h2");
            && r.out == Ok(())
            && r.store.memoryLog == [Tagged("h1"), Tagged("h3")]
            && r.store.auditLog == s.auditLog + [Audit.Event(now, Audit.Compliance, Memory.DeleteAction,
                                                 Memory.Actor, map["key_hash" := "h2"])]
  {
    var c := Memory.Curator(Privacy.Guardian(Privacy.Policy([], []), auditor), Some(Audit.NewAuditor([])));
    assert Memory.StoredHash(Tagged("h1").rec) == Ok(Some(Json.JString("h1")));
    assert Memory.StoredHash(Tagged("h2").rec) == Ok(Some(Json.JString("h2")));
    assert Memory.StoredHash(Tagged("h3").rec) == Ok(Some(Json.JString("h3")));
    assert s.memoryLog[1..] == [Tagged("h2"), Tagged("h3")];
    assert s.memoryLog[1..][1..] == [Tagged("h3")];
    assert Memory.Compact([Tagged("h3")], "h2").kept == [Tagged("h3")];
    assert Memory.Compact([Tagged("h2"), Tagged("h3")], "h2").kept == [Tagged("h3")];
    assert Memory.Compact(s.memoryLog, "h2") == Memory.Compaction([Tagged("h1"), Tagged("h3")], true);
    var r := Memory.DeleteByKey(c, s, now, "h2");
    assert r.out == Ok(());
    assert r.store.memoryLog == [Tagged("h1"), Tagged("h3")];
    assert Audit.NewAuditor([]).TierFor(Audit.Compliance) == Audit.Compliance;
  }

  /**
   * A record whose `data` is `null` stops the rewrite: deleting `h2` from `h1`, that record, `h3`
   * raises, leaves only `h1` (the `h3` record is lost though it does not carry `h2`), and audits nothing.
   */
  lemma MalformedRecordScenario(auditor: Audit.Auditor, s: Store, now: string)
    requires s.memoryLog == [Tagged("h1"), Parsed(Json.JObject(map["data" := Json.JNull])), Tagged("h3")]
    ensures var c := Memory.Curator(Privacy.Guardian(Privacy.Policy([], []), auditor), Some(Audit.NewAuditor([])));
            var r := Memory.DeleteByKey(c, s, now, "h2");
            && r.out == Err(MalformedMemoryRecord)
            && r.store.memoryLog == [Tagged("h1")]
            && r.store.auditLog == s.auditLog
  {
    assert Memory.StoredHash(Tagged("h1").rec) == Ok(Some(Json.JString("h1")));
    assert s.memoryLog[1..] == [Parsed(Json.JObject(map["data" := Json.JNull])), Tagged("h3")];
    assert Memory.Compact(s.memoryLog, "h2") == Memory.Compaction([Tagged("h1")], false);
  }
}

=== FILE: json.dfy ===
/** JSON values as `json.loads` produces them; numbers are kept as integers. */
module Json {
  import opened Wrappers

  datatype Value =
    | JNull
    | JBool(b: bool)
    | JNumber(n: int)
    | JString(s: string)
    | JArray(items: seq<Value>)
    | JObject(fields: map<string, Value>)

  /** `obj.get(name)`: the member's value, or `None` when it is absent. */
  function Get(fields: map<string, Value>, name: string): (r: Option<Value>)
    ensures r.Some? <==> name in fields
    ensures r.Some? ==> fields[name] == r.value
  {
    if name in fields then Some(fields[name]) else None
  }
}

=== FILE: memory.dfy ===
/** MemoryCurator: gated appends to the memory log and physical deletion by key hash. */
module Memory {
  import opened Wrappers
  import opened Seqs
  import opened Storage
  import Json
  import Audit
  import Consent
  import Privacy

  /** A curator writes through its guardian and audits only when it was given an auditor. */
  datatype Curator = Curator(guardian: Privacy.Guardian, auditor: Option<Audit.Auditor>)

  const Actor := "memory_curator"
  const WriteAction := "memory_write"
  const DeleteAction := "memory_delete"

  /** The member of `data` that carries the deletion key (note the leading underscore). */
  const HashField := "_key_hash"

  /** The record `log_event` writes: `{t, user, ns, data}`. */
  function Entry(now: string, user: string, ns: string, data: map<string, Json.Value>): (r: Json.Value)
    ensures r.JObject? && r.fields.Keys == {"t", "user", "ns", "data"}
    ensures r.fields["t"] == Json.JString(now)
    ensures r.fields["user"] == Json.JString(user) && r.fields["ns"] == Json.JString(ns)
    ensures r.fields["data"] == Json.JObject(data)
    ensures StoredHash(r) == Ok(Json.Get(data, HashField))
  {
    Json.JObject(map["t" := Json.JString(now), "user" := Json.JString(user),
                     "ns" := Json.JString(ns), "data" := Json.JObject(data)])
  }

  /**
   * `rec.get("data", {}).get("_key_hash")`, or the `AttributeError` it raises when the record,
   * or its `data`, is not a JSON object.
   */
  function StoredHash(rec: Json.Value): (r: Result<Option<Json.Value>, Fault>)
    ensures r.Err? <==> !rec.JObject? || ("data" in rec.fields && !rec.fields["data"].JObject?)
    ensures r.Err? ==> r.error == MalformedMemoryRecord
    ensures rec.JObject? && "data" !in rec.fields ==> r == Ok(None)
    ensures r.Ok? && r.value.Some? ==> "data" in rec.fields && HashField in rec.fields["data"].fields
                                       && rec.fields["data"].fields[HashField] == r.value.value
  {
    match rec
    case JObject(fields) =>
      if "data" !in fields then Ok(None)
      else (match fields["data"]
            case JObject(data) => Ok(Json.Get(data, HashField))
            case _ => Err(MalformedMemoryRecord))
    case _ => Err(MalformedMemoryRecord)
  }

  /** A line the rewrite can get past: unparsable text, or a record it can look into. */
  predicate WellShaped(l: Line) {
    l.Unparsed? || StoredHash(l.rec).Ok?
  }

  predicate AllWellShaped(lines: seq<Line>) {
    forall i :: 0 <= i < |lines| ==> WellShaped(lines[i])
  }

  /** A parsed record whose `data._key_hash` is the string `h`. */
  predicate Matches(l: Line, h: string) {
    l.Parsed? && StoredHash(l.rec) == Ok(Some(Json.JString(h)))
  }

  /** A line the rewrite writes back when deleting `h`. */
  predicate Survives(l: Line, h: string) {
    l.Parsed? && !Matches(l, h)
  }

  function SurvivorOf(h: string): Line -> bool {
    l => Survives(l, h)
  }

  /** The lines the rewrite wrote back, and whether it got to the end of the log. */
  datatype Compaction = Compaction(kept: seq<Line>, complete: bool)

  /**
   * The rewrite of `delete_by_key(h)`, line by line: unparsable lines and records matching `h`
   * are skipped, every other record is written back, and a record the code cannot look into
   * stops the rewrite, leaving the lines already written.
   */
  function Compact(lines: seq<Line>, h: string): (r: Compaction)
    ensures |r.kept| <= |lines|
    ensures forall i :: 0 <= i < |r.kept| ==> r.kept[i] in lines && Survives(r.kept[i], h) && WellShaped(r.kept[i])
    decreases |lines|
  {
    if |lines| == 0 then Compaction([], true)
    else
      match lines[0]
      case Unparsed => Compact(lines[1..], h)
      case Parsed(rec) =>
        match StoredHash(rec)
        case Err(_) => Compaction([], false)
        case Ok(v) =>
          var rest := Compact(lines[1..], h);
          if v == Some(Json.JString(h)) then rest
          else Compaction([lines[0]] + rest.kept, rest.complete)
  }

  /** The rewrite loop of `delete_by_key`, written the way the code runs it. */
  method RewriteLines(lines: seq<Line>, h: string) returns (kept: seq<Line>, complete: bool)
    ensures Compaction(kept, complete) == Compact(lines, h)
    ensures forall i :: 0 <= i < |kept| ==> !Matches(kept[i], h)
  {
    kept := [];
    complete := true;
    var i := 0;
    while i < |lines|
      invariant 0 <= i <= |lines|
      invariant kept + Compact(lines[i..], h).kept == Compact(lines, h).kept
      invariant Compact(lines[i..], h).complete == Compact(lines, h).complete
    {
      assert lines[i..][1..] == lines[i + 1..];
      match lines[i] {
        case Unparsed =>
        case Parsed(rec) =>
          match StoredHash(rec) {
            case Err(_) =>
              complete := false;
              return;
            case Ok(v) =>
              if v != Some(Json.JString(h)) {
                kept := kept + [lines[i]];
              }
          }
      }
      i := i + 1;
    }
    assert lines[i..] == [];
  }

  /**
   * `log_event(user, ns, data)`: asks the guardian about `memory_write` with no key and no
   * domain; on allow appends one entry and, with an auditor, one `app` event.
   */
  function LogEvent(c: Curator, s: Store, now: string, user: string, ns: string,
                    data: map<string, Json.Value>): (r: Step<()>)
    ensures r.store.consent == s.consent && r.store.privacyLog == s.privacyLog
    ensures !s.consent.Stored? ==> r == Step(s, Err(ConsentUnreadable))
    ensures s.consent.Stored? && !Consent.Permits(s.consent.doc, WriteAction) ==> r == Step(s, Ok(()))
    ensures s.consent.Stored? && Consent.Permits(s.consent.doc, WriteAction) ==>
              && r.out == Ok(())
              && r.store.memoryLog == s.memoryLog + [Parsed(Entry(now, user, ns, data))]
              && (c.auditor.None? ==> r.store.auditLog == s.auditLog)
              && (c.auditor.Some? ==>
                    r.store.auditLog == s.auditLog + [Audit.Event(now, c.auditor.value.TierFor(Audit.App),
                                                      WriteAction, Actor, map["user" := user, "ns" := ns])])
  {
    var d := Privacy.Allowed(c.guardian, s, now, WriteAction, None, None);
    match d.out
    case Err(e) => Step(d.store, Err(e))
    case Ok(false) => Step(d.store, Ok(()))
    case Ok(true) =>
      var s1 := d.store.(memoryLog := d.store.memoryLog + [Parsed(Entry(now, user, ns, data))]);
      var s2 := if c.auditor.Some? then
                  s1.(auditLog := Audit.Record(c.auditor.value, s1.auditLog, now, Audit.App, WriteAction, Actor,
                                               map["user" := user, "ns" := ns]))
                else s1;
      Step(s2, Ok(()))
  }

  /**
   * `delete_by_key(h)`: rewrites the memory log without the records whose `data._key_hash`
   * is `h`, then records one compliance event whatever matched.
   */
  function DeleteByKey(c: Curator, s: Store, now: string, h: string): (r: Step<()>)
    ensures r.store.consent == s.consent && r.store.privacyLog == s.privacyLog
    ensures forall i :: 0 <= i < |r.store.memoryLog| ==>
              r.store.memoryLog[i] in s.memoryLog && Survives(r.store.memoryLog[i], h)
    ensures r.out.Ok? <==> AllWellShaped(s.memoryLog)
    ensures r.out.Err? ==> r.out.error == MalformedMemoryRecord && r.store.auditLog == s.auditLog
    ensures r.out.Err? ==>
              exists k :: 0 <= k < |s.memoryLog| && !WellShaped(s.memoryLog[k]) && AllWellShaped(s.memoryLog[..k])
                          && r.store.memoryLog == Filter(s.memoryLog[..k], SurvivorOf(h))
    ensures r.out.Ok? && c.auditor.None? ==> r.store.auditLog == s.auditLog
    ensures r.out.Ok? && c.auditor.Some? ==>
              r.store.auditLog == s.auditLog + [Audit.Event(now, c.auditor.value.TierFor(Audit.Compliance),
                                                DeleteAction, Actor, map["key_hash" := h])]
  {
    var rw := Compact(s.memoryLog, h);
    CompleteIffWellShaped(s.memoryLog, h);
    CompactOnFailure(s.memoryLog, h);
    var audit := if rw.complete && c.auditor.Some? then
                   Audit.Record(c.auditor.value, s.auditLog, now, Audit.Compliance, DeleteAction, Actor,
                                map["key_hash" := h])
                 else s.auditLog;
    Step(s.(memoryLog := rw.kept, auditLog := audit),
         if rw.complete then Ok(()) else Err(MalformedMemoryRecord))
  }

  /** The rewrite reaches the end of the log exactly when every line is well shaped. */
  lemma {:induction false} CompleteIffWellShaped(lines: seq<Line>, h: string)
    ensures Compact(lines, h).complete <==> AllWellShaped(lines)
    decreases |lines|
  {
    if |lines| > 0 {
      CompleteIffWellShaped(lines[1..], h);
      assert forall i :: 1 <= i < |lines| ==> lines[i] == lines[1..][i - 1];
    }
  }

  /**
   * At the first record the rewrite cannot look into it stops: the log keeps the survivors
   * before that record and loses that record and everything after it.
   */
  lemma {:induction false} CompactStopsAtFirstMalformed(lines: seq<Line>, h: string, k: nat)
    requires k < |lines| && !WellShaped(lines[k]) && AllWellShaped(lines[..k])
    ensures Compact(lines, h) == Compaction(Filter(lines[..k], SurvivorOf(h)), false)
    decreases k
  {
    if k > 0 {
      assert lines[1..][k - 1] == lines[k];
      assert lines[1..][..k - 1] == lines[..k][1..];
      var tail := lines[1..][..k - 1];
      assert AllWellShaped(tail) by {
        assert forall i :: 0 <= i < k - 1 ==> tail[i] == lines[i + 1];
      }
      assert WellShaped(lines[..k][0]);
      CompactStopsAtFirstMalformed(lines[1..], h, k - 1);
    }
  }

  /** A log that is not well shaped has a first line the rewrite cannot look into. */
  lemma {:induction false} FirstMalformedExists(lines: seq<Line>)
    requires !AllWellShaped(lines)
    ensures exists k :: 0 <= k < |lines| && !WellShaped(lines[k]) && AllWellShaped(lines[..k])
    decreases |lines|
  {
    if WellShaped(lines[0]) {
      assert !AllWellShaped(lines[1..]) by {
        assert forall i :: 1 <= i < |lines| ==> lines[i] == lines[1..][i - 1];
      }
      FirstMalformedExists(lines[1..]);
      var k :| 0 <= k < |lines[1..]| && !WellShaped(lines[1..][k]) && AllWellShaped(lines[1..][..k]);
      assert lines[k + 1] == lines[1..][k];
      var front := lines[..k + 1];
      var rest := lines[1..][..k];
      assert AllWellShaped(front) by {
        assert forall i :: 1 <= i < k + 1 ==> front[i] == rest[i - 1];
      }
    } else {
      assert AllWellShaped(lines[..0]);
    }
  }

  /** A rewrite that stops has written back exactly the survivors before the first unreadable record. */
  lemma CompactOnFailure(lines: seq<Line>, h: string)
    ensures !Compact(lines, h).complete ==>
              exists k :: 0 <= k < |lines| && !WellShaped(lines[k]) && AllWellShaped(lines[..k])
                          && Compact(lines, h).kept == Filter(lines[..k], SurvivorOf(h))
  {
    if !Compact(lines, h).complete {
      CompleteIffWellShaped(lines, h);
      FirstMalformedExists(lines);
      var k :| 0 <= k < |lines| && !WellShaped(lines[k]) && AllWellShaped(lines[..k]);
      CompactStopsAtFirstMalformed(lines, h, k);
    }
  }

  /** On a well-shaped log the rewrite is exactly the order-preserving filter of surviving records. */
  lemma {:induction false} CompactIsFilter(lines: seq<Line>, h: string)
    requires AllWellShaped(lines)
    ensures Compact(lines, h) == Compaction(Filter(lines, SurvivorOf(h)), true)
    decreases |lines|
  {
    if |lines| > 0 {
      assert AllWellShaped(lines[1..]) by {
        assert forall i :: 0 <= i < |lines| - 1 ==> lines[1..][i] == lines[i + 1];
      }
      CompactIsFilter(lines[1..], h);
    }
  }

  /** Whatever the log holds, the lines written back keep their original relative order. */
  lemma {:induction false} CompactKeepsOrder(lines: seq<Line>, h: string)
    ensures IsSubseq(Compact(lines, h).kept, lines)
    decreases |lines|
  {
    if |lines| > 0 {
      CompactKeepsOrder(lines[1..], h);
      var r := Compact(lines, h);
      var rest := Compact(lines[1..], h);
      if r.kept == rest.kept {
        SubseqOfTail(rest.kept, lines);
      } else if |r.kept| > 0 {
        assert r.kept == [lines[0]] + rest.kept;
        assert r.kept[1..] == rest.kept;
      }
    }
  }

  lemma SubseqOfTail(a: seq<Line>, b: seq<Line>)
    requires |b| > 0 && IsSubseq(a, b[1..])
    ensures IsSubseq(a, b)
  {
  }

  /** A log of surviving, well-shaped records is written back unchanged and in full. */
  lemma {:induction false} CompactFixesSurvivors(lines: seq<Line>, h: string)
    requires forall i :: 0 <= i < |lines| ==> Survives(lines[i], h) && WellShaped(lines[i])
    ensures Compact(lines, h) == Compaction(lines, true)
    decreases |lines|
  {
    if |lines| > 0 {
      assert forall i :: 0 <= i < |lines| - 1 ==> lines[1..][i] == lines[i + 1];
      CompactFixesSurvivors(lines[1..], h);
      assert lines == [lines[0]] + lines[1..];
    }
  }

  /** Compacting twice by the same hash changes nothing the second time, and the second pass always completes. */
  lemma CompactIdempotent(lines: seq<Line>, h: string)
    ensures Compact(Compact(lines, h).kept, h) == Compaction(Compact(lines, h).kept, true)
  {
    CompactFixesSurvivors(Compact(lines, h).kept, h);
  }

  /** Deleting two hashes in either order leaves the same lines. */
  lemma {:induction false} CompactCommutes(lines: seq<Line>, h1: string, h2: string)
    ensures Compact(Compact(lines, h1).kept, h2).kept == Compact(Compact(lines, h2).kept, h1).kept
    decreases |lines|
  {
    if |lines| > 0 {
      CompactCommutes(lines[1..], h1, h2);
      match lines[0]
      case Unparsed =>
      case Parsed(rec) =>
        match StoredHash(rec)
        case Err(_) =>
        case Ok(v) =>
          var a := Compact(lines[1..], h1).kept;
          var b := Compact(lines[1..], h2).kept;
          assert ([lines[0]] + a)[1..] == a;
          assert ([lines[0]] + b)[1..] == b;
    }
  }

  /** Deleting by a hash removes every record carrying it, and on a well-shaped log nothing else. */
  lemma DeleteRemovesAllAndOnly(c: Curator, s: Store, now: string, h: string)
    requires AllWellShaped(s.memoryLog)
    ensures var r := DeleteByKey(c, s, now, h);
            forall l :: l in r.store.memoryLog <==> l in s.memoryLog && l.Parsed? && !Matches(l, h)
    ensures IsSubseq(DeleteByKey(c, s, now, h).store.memoryLog, s.memoryLog)
    ensures DeleteByKey(c, s, now, h).store.memoryLog == Filter(s.memoryLog, SurvivorOf(h))
  {
    CompactIsFilter(s.memoryLog, h);
    CompactKeepsOrder(s.memoryLog, h);
    var kept := DeleteByKey(c, s, now, h).store.memoryLog;
    forall l | l in s.memoryLog && l.Parsed? && !Matches(l, h)
      ensures l in kept
    {
      var i :| 0 <= i < |s.memoryLog| && s.memoryLog[i] == l;
      assert SurvivorOf(h)(s.memoryLog[i]);
    }
  }

  /** A second deletion by the same hash leaves the log as it is and still audits exactly once. */
  lemma DeleteByKeyIdempotent(c: Curator, s: Store, t1: string, t2: string, h: string)
    ensures var r1 := DeleteByKey(c, s, t1, h);
            var r2 := DeleteByKey(c, r1.store, t2, h);
            && r2.out == Ok(())
            && r2.store.memoryLog == r1.store.memoryLog
            && |r2.store.auditLog| == |r1.store.auditLog| + (if c.auditor.Some? then 1 else 0)
  {
    CompactIdempotent(s.memoryLog, h);
    CompleteIffWellShaped(DeleteByKey(c, s, t1, h).store.memoryLog, h);
  }

  /** Entries written by `log_event` can always be looked into by the rewrite. */
  lemma LogEventKeepsWellShaped(c: Curator, s: Store, now: string, user: string, ns: string,
                                data: map<string, Json.Value>)
    ensures AllWellShaped(s.memoryLog) ==> AllWellShaped(LogEvent(c, s, now, user, ns, data).store.memoryLog)
  {
  }

  /**
   * The life of an entry: written under consent with `_key_hash` set to `h`, it is present; after
   * `delete_by_key(h)` it is gone, together with every other record carrying `h`.
   */
  lemma WrittenThenErased(c: Curator, s: Store, t1: string, t2: string, user: string, ns: string,
                          data: map<string, Json.Value>, h: string)
    requires s.consent.Stored? && Consent.Permits(s.consent.doc, WriteAction)
    requires Json.Get(data, HashField) == Some(Json.JString(h))
    ensures var r1 := LogEvent(c, s, t1, user, ns, data);
            && Parsed(Entry(t1, user, ns, data)) in r1.store.memoryLog
            && Matches(Parsed(Entry(t1, user, ns, data)), h)
            && var r2 := DeleteByKey(c, r1.store, t2, h);
               && Parsed(Entry(t1, user, ns, data)) !in r2.store.memoryLog
               && forall i :: 0 <= i < |r2.store.memoryLog| ==> !Matches(r2.store.memoryLog[i], h)
  {
  }
}

=== FILE: privacy.dfy ===
/** PrivacyGuardian: the policy gate and the consent bookkeeping. */
module Privacy {
  import opened Wrappers
  import opened Seqs
  import opened Storage
  import Text
  import Audit
  import Consent

  /** The `memory_policies` configuration; an absent list is the empty list. */
  datatype Policy = Policy(blockedKeys: seq<string>, allowlistDomains: seq<string>)

  datatype Guardian = Guardian(policy: Policy, auditor: Audit.Auditor)

  const Actor := "privacy_guardian"

  /** Python truthiness of an optional string: `None` and `""` both count as not given. */
  function Given(o: Option<string>): (r: bool)
    ensures o.None? ==> !r
    ensures r ==> |o.value| > 0
  {
    o.Some? && o.value != ""
  }

  /** The key is given and equals some blocked key once both are lower-cased. */
  function KeyBlocked(p: Policy, key: Option<string>): (r: bool)
    ensures !Given(key) || |p.blockedKeys| == 0 ==> !r
    ensures Given(key) && key.value in p.blockedKeys ==> r
    ensures r ==> exists k :: k in p.blockedKeys && Text.Lower(k) == Text.Lower(key.value)
  {
    Given(key) && exists k :: k in p.blockedKeys && Text.Lower(k) == Text.Lower(key.value)
  }

  /** The domain is given, an allowlist is configured, and the domain is not on it (case-sensitive). */
  function DomainRefused(p: Policy, domain: Option<string>): (r: bool)
    ensures !Given(domain) || |p.allowlistDomains| == 0 ==> !r
    ensures r ==> domain.value !in p.allowlistDomains
    ensures Given(domain) && |p.allowlistDomains| > 0 && domain.value !in p.allowlistDomains ==> r
  {
    Given(domain) && |p.allowlistDomains| > 0 && domain.value !in p.allowlistDomains
  }

  /** The constructor: an absent or empty consent file receives the empty document; nothing else is touched. */
  function Open(s: Store): (r: Store)
    ensures !r.consent.Blank?
    ensures !s.consent.Blank? ==> r == s
    ensures r.privacyLog == s.privacyLog && r.auditLog == s.auditLog && r.memoryLog == s.memoryLog
  {
    s.(consent := Consent.Bootstrap(s.consent))
  }

  /**
   * `allowed(action, key, domain)`. The perimeter checks come first and are the only paths
   * that write a privacy record and an audit event; the consent maps decide silently.
   */
  function Allowed(g: Guardian, s: Store, now: string, action: string,
                   key: Option<string>, domain: Option<string>): (r: Step<bool>)
    ensures r.store.consent == s.consent && r.store.memoryLog == s.memoryLog
    ensures KeyBlocked(g.policy, key) ==>
              && r.out == Ok(false)
              && r.store.privacyLog == s.privacyLog + [BlockedKey(now, action, key.value)]
              && r.store.auditLog == s.auditLog + [Audit.Event(now, g.auditor.TierFor(Audit.Compliance),
                                                   "blocked_key", Actor, map["action" := action, "key" := key.value])]
    ensures !KeyBlocked(g.policy, key) && DomainRefused(g.policy, domain) ==>
              && r.out == Ok(false)
              && r.store.privacyLog == s.privacyLog + [DeniedDomain(now, action, domain.value)]
              && r.store.auditLog == s.auditLog + [Audit.Event(now, g.auditor.TierFor(Audit.Security),
                                                   "domain_denied", Actor, map["action" := action, "domain" := domain.value])]
    ensures !KeyBlocked(g.policy, key) && !DomainRefused(g.policy, domain) ==>
              && r.store == s
              && (s.consent.Stored? ==> r.out == Ok(Consent.Permits(s.consent.doc, action)))
              && (!s.consent.Stored? ==> r.out == Err(ConsentUnreadable))
  {
    if KeyBlocked(g.policy, key) then
      var k := key.value;
      Step(s.(privacyLog := s.privacyLog + [BlockedKey(now, action, k)],
              auditLog := Audit.Record(g.auditor, s.auditLog, now, Audit.Compliance, "blocked_key", Actor,
                                       map["action" := action, "key" := k])),
           Ok(false))
    else if DomainRefused(g.policy, domain) then
      var d := domain.value;
      Step(s.(privacyLog := s.privacyLog + [DeniedDomain(now, action, d)],
              auditLog := Audit.Record(g.auditor, s.auditLog, now, Audit.Security, "domain_denied", Actor,
                                       map["action" := action, "domain" := d])),
           Ok(false))
    else
      match Consent.Load(s.consent)
      case None => Step(s, Err(ConsentUnreadable))
      case Some(doc) => Step(s, Ok(Consent.Permits(doc, action)))
  }

  /**
   * `request_delete(key, reason)`: records intent only. The request is appended to the consent
   * document, and one privacy record and one compliance event are written.
   */
  function RequestDelete(g: Guardian, s: Store, now: string, key: string, reason: string): (r: Step<()>)
    ensures !s.consent.Stored? ==> r == Step(s, Err(ConsentUnreadable))
    ensures s.consent.Stored? ==>
              && r.out == Ok(())
              && r.store.consent.Stored?
              && r.store.consent.doc.consents == s.consent.doc.consents
              && r.store.consent.doc.denies == s.consent.doc.denies
              && Consent.Requests(r.store.consent.doc)
                   == Consent.Requests(s.consent.doc) + [Consent.DeleteRequest(now, key, reason)]
              && r.store.privacyLog == s.privacyLog + [DeleteRequested(now, key, reason)]
              && r.store.auditLog == s.auditLog + [Audit.Event(now, g.auditor.TierFor(Audit.Compliance),
                                                   "delete_request", Actor, map["t" := now, "key" := key, "reason" := reason])]
              && r.store.memoryLog == s.memoryLog
  {
    match Consent.Load(s.consent)
    case None => Step(s, Err(ConsentUnreadable))
    case Some(doc) =>
      var req := Consent.DeleteRequest(now, key, reason);
      Step(s.(consent := Consent.Stored(Consent.AddRequest(doc, req)),
              privacyLog := s.privacyLog + [DeleteRequested(now, key, reason)],
              auditLog := Audit.Record(g.auditor, s.auditLog, now, Audit.Compliance, "delete_request", Actor,
                                       map["t" := req.t, "key" := req.key, "reason" := req.reason])),
           Ok(()))
  }

  /** `confirm_delete(key)`: an acknowledgement in the privacy and audit logs, nothing more. */
  function ConfirmDelete(g: Guardian, s: Store, now: string, key: string): (r: Store)
    ensures r.consent == s.consent && r.memoryLog == s.memoryLog
    ensures r.privacyLog == s.privacyLog + [DeleteConfirmed(now, key)]
    ensures r.auditLog == s.auditLog + [Audit.Event(now, g.auditor.TierFor(Audit.Compliance),
                                        "delete_confirmed", Actor, map["key" := key])]
  {
    s.(privacyLog := s.privacyLog + [DeleteConfirmed(now, key)],
       auditLog := Audit.Record(g.auditor, s.auditLog, now, Audit.Compliance, "delete_confirmed", Actor,
                                map["key" := key]))
  }

  /** The decision in one formula: refused exactly on a perimeter hit, or on a deny flag without consent. */
  lemma AllowedVerdict(g: Guardian, s: Store, now: string, action: string,
                       key: Option<string>, domain: Option<string>)
    ensures Allowed(g, s, now, action, key, domain).out == Ok(false) <==>
              || KeyBlocked(g.policy, key)
              || DomainRefused(g.policy, domain)
              || (s.consent.Stored? && Consent.Flagged(s.consent.doc.denies, action)
                  && !Consent.Flagged(s.consent.doc.consents, action))
    ensures Allowed(g, s, now, action, key, domain).out == Ok(true) <==>
              && !KeyBlocked(g.policy, key)
              && !DomainRefused(g.policy, domain)
              && s.consent.Stored?
              && (Consent.Flagged(s.consent.doc.consents, action) || !Consent.Flagged(s.consent.doc.denies, action))
    ensures Allowed(g, s, now, action, key, domain).out.Err? <==>
              !KeyBlocked(g.policy, key) && !DomainRefused(g.policy, domain) && !s.consent.Stored?
  {
  }

  /** A policy hit is decided before the consent document is read, so its state, even a corrupt file, is irrelevant. */
  lemma PerimeterIgnoresConsent(g: Guardian, s: Store, f: Consent.File, now: string, action: string,
                                key: Option<string>, domain: Option<string>)
    requires KeyBlocked(g.policy, key) || DomainRefused(g.policy, domain)
    ensures Allowed(g, s.(consent := f), now, action, key, domain).out == Ok(false)
    ensures Allowed(g, s, now, action, key, domain).out == Ok(false)
  {
  }

  /** Keys that lower-case alike are blocked alike. */
  lemma KeyBlockedIgnoresCase(p: Policy, k1: string, k2: string)
    requires Text.Lower(k1) == Text.Lower(k2)
    ensures KeyBlocked(p, Some(k1)) == KeyBlocked(p, Some(k2))
  {
  }

  /** Block-list matching ignores case: keys that lower-case alike get the same answer. */
  lemma BlockingIgnoresCase(g: Guardian, s: Store, now: string, action: string,
                            k1: string, k2: string, domain: Option<string>)
    requires Text.Lower(k1) == Text.Lower(k2)
    ensures Allowed(g, s, now, action, Some(k1), domain).out == Allowed(g, s, now, action, Some(k2), domain).out
  {
    KeyBlockedIgnoresCase(g.policy, k1, k2);
  }

  /** Every path of `allowed` only appends to the logs: earlier records are never altered. */
  lemma AllowedAppendsOnly(g: Guardian, s: Store, now: string, action: string,
                           key: Option<string>, domain: Option<string>)
    ensures IsPrefix(s.privacyLog, Allowed(g, s, now, action, key, domain).store.privacyLog)
    ensures IsPrefix(s.auditLog, Allowed(g, s, now, action, key, domain).store.auditLog)
    ensures |Allowed(g, s, now, action, key, domain).store.auditLog| - |s.auditLog|
              == |Allowed(g, s, now, action, key, domain).store.privacyLog| - |s.privacyLog| <= 1
  {
  }
}

=== FILE: seqs.dfy ===
/** Sequence relations used to state append-only and filtering properties. */
module Seqs {

  /** `b` was obtained from `a` by appending only: `a` is left untouched at its front. */
  predicate IsPrefix<T(==)>(a: seq<T>, b: seq<T>) {
    |a| <= |b| && b[..|a|] == a
  }

  lemma PrefixTransitive<T>(a: seq<T>, b: seq<T>, c: seq<T>)
    requires IsPrefix(a, b) && IsPrefix(b, c)
    ensures IsPrefix(a, c)
  {
    assert c[..|a|] == c[..|b|][..|a|];
  }

  /** `a` can be obtained from `b` by deleting elements; the rest keep their relative order. */
  predicate IsSubseq<T(==)>(a: seq<T>, b: seq<T>)
    decreases |b|
  {
    |a| == 0 || (|b| > 0 && ((a[0] == b[0] && IsSubseq(a[1..], b[1..])) || IsSubseq(a, b[1..])))
  }

  /** The elements of `s` that satisfy `keep`, in their original order. */
  function Filter<T(==)>(s: seq<T>, keep: T -> bool): (r: seq<T>)
    ensures |r| <= |s|
    ensures forall i :: 0 <= i < |r| ==> r[i] in s && keep(r[i])
    ensures forall i :: 0 <= i < |s| && keep(s[i]) ==> s[i] in r
    ensures IsSubseq(r, s)
    decreases |s|
  {
    if |s| == 0 then []
    else
      assert s == [s[0]] + s[1..];
      var rest := Filter(s[1..], keep);
      if keep(s[0]) then
        assert ([s[0]] + rest)[1..] == rest;
        [s[0]] + rest
      else rest
  }
}

=== FILE: storage.dfy ===
/** The four governed files as in-memory values, and the shape of one step over them. */
module Storage {
  import opened Wrappers
  import Json
  import Audit
  import Consent

  /** One line of the privacy log. */
  datatype PrivacyRecord =
      /** `{t, action, key, decision: "blocked"}` */
    | BlockedKey(t: string, action: string, key: string)
      /** `{t, action, domain, decision: "denied"}` */
    | DeniedDomain(t: string, action: string, domain: string)
      /** `{t, event: "delete_request", key, reason}` */
    | DeleteRequested(t: string, key: string, reason: string)
      /** `{t, event: "delete_confirmed", key}` */
    | DeleteConfirmed(t: string, key: string)

  /** One line of the memory log: a JSON value, or text that `json.loads` rejects. */
  datatype Line = Parsed(rec: Json.Value) | Unparsed

  /** The consent file, the privacy log, the audit log and the memory log. */
  datatype Store = Store(
    consent: Consent.File,
    privacyLog: seq<PrivacyRecord>,
    auditLog: seq<Audit.Event>,
    memoryLog: seq<Line>)

  /** Exceptions the core lets escape to its caller. */
  datatype Fault =
      /** `json.load` of the consent file failed */
    | ConsentUnreadable
      /** a memory-log record, or its `data`, is not a JSON object */
    | MalformedMemoryRecord

  /** The files after an operation, and what it returned or raised. */
  datatype Step<+T> = Step(store: Store, out: Result<T, Fault>)
}

=== FILE: text.dfy ===
/** Case folding used for block-list matching (ASCII letters only). */
module Text {

  predicate IsUpper(c: char) {
    'A' <= c <= 'Z'
  }

  function LowerChar(c: char): char {
    if IsUpper(c) then (c as int + 32) as char else c
  }

  /** `s.lower()`: upper-case letters become lower-case, every other character is kept. */
  function Lower(s: string): (r: string)
    ensures |r| == |s|
    ensures forall i :: 0 <= i < |r| ==> !IsUpper(r[i])
    ensures forall i :: 0 <= i < |s| && !IsUpper(s[i]) ==> r[i] == s[i]
    ensures forall i :: 0 <= i < |s| && IsUpper(s[i]) ==> r[i] as int == s[i] as int + 32
  {
    seq(|s|, i requires 0 <= i < |s| => LowerChar(s[i]))
  }
}

=== FILE: training.dfy ===
/** TrainingManager: which required connection parameters are still missing. */
module Training {
  import opened Wrappers
  import opened Seqs

  /** `TrainingManager.required_params`, in the order they are reported. */
  const RequiredParams: seq<string> := ["api_key", "endpoint", "domain"]

  /** `not params.get(p)`: the parameter is absent, `None`, or the empty string. */
  function Missing(params: map<string, Option<string>>, p: string): (r: bool)
    ensures p !in params ==> r
    ensures !r ==> params[p].Some? && |params[p].value| > 0
    ensures p in params && params[p].Some? && |params[p].value| > 0 ==> !r
  {
    p !in params || params[p].None? || params[p] == Some("")
  }

  /** `check_missing(params)`: the required parameters without a usable value, in required order. */
  function CheckMissing(params: map<string, Option<string>>): (r: seq<string>)
    ensures forall i :: 0 <= i < |r| ==> r[i] in RequiredParams && Missing(params, r[i])
    ensures forall i :: 0 <= i < |RequiredParams| && Missing(params, RequiredParams[i]) ==> RequiredParams[i] in r
    ensures IsSubseq(r, RequiredParams)
  {
    Filter(RequiredParams, p => Missing(params, p))
  }

  /** With every parameter unset, as at start-up, all three are reported, in order. */
  lemma NothingGiven()
    ensures CheckMissing(map["api_key" := None, "endpoint" := None, "domain" := None]) == RequiredParams
  {
  }

  /** One parameter set, one empty, one unset: the empty and the unset ones are reported, in order. */
  lemma PartlyGiven()
    ensures CheckMissing(map["api_key" := Some("k"), "endpoint" := Some(""), "domain" := None]) == ["endpoint", "domain"]
  {
  }

  /** Parameters that are all present and non-empty leave nothing to ask for. */
  lemma AllGiven(params: map<string, Option<string>>)
    requires forall i :: 0 <= i < |RequiredParams| ==> !Missing(params, RequiredParams[i])
    ensures CheckMissing(params) == []
  {
  }
}

=== FILE: vault.dfy ===
/** VaultKeeper: an in-memory secret map whose writes need approval. */
module Vault {
  import opened Wrappers
  import Audit

  datatype Keeper = Keeper(secrets: map<string, string>, auditor: Audit.Auditor)

  const Actor := "vault_keeper"

  /** `get(name)`: the stored secret, or `None`. */
  function Get(v: Keeper, name: string): (r: Option<string>)
    ensures r.Some? <==> name in v.secrets
    ensures r.Some? ==> v.secrets[name] == r.value
  {
    if name in v.secrets then Some(v.secrets[name]) else None
  }

  /**
   * `put(name, value, approved)`: without approval nothing is stored or audited; with it the
   * secret is stored and one `security` event naming the secret, not its value, is recorded.
   */
  function Put(v: Keeper, log: seq<Audit.Event>, now: string, name: string, value: string,
               approved: bool): (r: (Keeper, seq<Audit.Event>))
    ensures !approved ==> r == (v, log)
    ensures approved ==> Get(r.0, name) == Some(value)
    ensures approved ==> forall n :: n != name ==> Get(r.0, n) == Get(v, n)
    ensures approved ==> r.0.auditor == v.auditor
    ensures approved ==> r.1 == log + [Audit.Event(now, v.auditor.TierFor(Audit.Security), "secret_store", Actor,
                                                   map["secret" := name])]
  {
    if !approved then (v, log)
    else
      (v.(secrets := v.secrets[name := value]),
       Audit.Record(v.auditor, log, now, Audit.Security, "secret_store", Actor, map["secret" := name]))
  }

  /** The audit event of an approved store carries the secret's name only. */
  lemma PutAuditsNameOnly(v: Keeper, log: seq<Audit.Event>, now: string, name: string, value: string)
    ensures var r := Put(v, log, now, name, value, true);
            |r.1| == |log| + 1 && r.1[|log|].detail.Keys == {"secret"} && r.1[|log|].detail["secret"] == name
  {
  }

  /** Storing the same secret again with approval changes the map no further. */
  lemma PutTwice(v: Keeper, log: seq<Audit.Event>, t1: string, t2: string, name: string, value: string)
    ensures var r1 := Put(v, log, t1, name, value, true);
            Put(r1.0, r1.1, t2, name, value, true).0 == r1.0
  {
  }
}

=== FILE: wrappers.dfy ===
/** Failure-carrying shapes shared by the whole model. */
module Wrappers {

  /** A value that may be absent (Python's `None`). */
  datatype Option<+T> = None | Some(value: T) {

    /** The value, or `default` when there is none (`d.get(k, default)`). */
    function GetOr(default: T): T {
      match this
      case Some(v) => v
      case None => default
    }
  }

  /** The outcome of an operation that may raise instead of returning. */
  datatype Result<+T, +E> = Ok(value: T) | Err(error: E)
}
